=== FILE: README.md ===
# Go-Back-N file transfer: packet codec, receiver and sender window

This project models the sequential core of a Go-Back-N file-transfer pair in
Dafny. The Sender splits a file into packets of at most 500 bytes. It keeps up
to 10 of them outstanding in a sliding window over 32 sequence numbers, and it
resends the whole outstanding window when its timer expires. The Receiver
writes in-order packets to its output file and answers each data packet with a
cumulative acknowledgment. The two ends exchange EOT packets when the transfer
is done.

The sockets, threads, lock and timer are taken out. Each piece of logic is a
pure function over immutable values:

- `bytes.dfy` (`Bytes`): raw bytes, Java's 32-bit `int`, Java's truncating
  `% 32`, and the big-endian four-byte layout of `ByteBuffer.putInt`/`getInt`.
- `packets.dfy` (`Packets`): the guarded packet constructor, the three
  factories (ACK = 0, DATA = 1, EOT = 2), the 512-byte frame encoder
  (`getUDPdata`) and the decoder (`parseUDPdata`), with its Java exceptions
  modelled as a `Result`.
- `receiver.dfy` (`Receiving`): one iteration of the receive loop as a step
  over `(expectedSeqNum, output, done)`, and a run over a sequence of
  arriving packets.
- `sender.dfy` (`Sending`): `createPackets`, the transmit loop's guard and
  step, the ack listener's transition, the window-to-array index mapping, the
  timeout resend range and the final EOT.
- `transfer.dfy` (`Transfer`): properties that need both ends together. One is
  in-order delivery over a lossy, duplicating and reordering link. The other is
  a perfect link on which either of the sender's two threads may take its
  monitor at each turn. Over it, the receiver always holds exactly the chunks
  sent so far, before completion one of the two threads can always move, and the schedule
  the monitor produces runs to completion and the EOT exchange.

A packet sent back is returned as a value instead of going onto a socket. A
timer operation is returned as a `TimerAction` value (keep, stop or restart).

## Model

| member | source | states |
|---|---|---|
| Bytes.JavaRem32 | src/Packet.java:28 | Java's `% 32`: the result has the sign of the dividend and magnitude below 32, differs from the input by a multiple of 32, and equals the ordinary residue for non-negative input |
| Bytes.DecodeEncodeInt32 | src/Packet.java:69-80 | reading back a big-endian `int` written with `putInt` gives the same value, negative values included |
| Bytes.EncodeDecodeInt32 | src/Packet.java:78-80 | every four-byte pattern `getInt` reads is the encoding of the `int` it yields, so the field layout is a bijection |
| Packets.NewPacket | src/Packet.java:22-32 | construction fails (DataTooLarge) exactly when a non-null payload is over 500 bytes, so 500 succeeds; the seqnum is the input's Java `% 32`; a null payload becomes empty; any other payload is kept unchanged |
| Packets.CreateAck | src/Packet.java:35-37 | an ACK is an empty packet of type 0 from the guarded constructor; it never fails |
| Packets.CreatePacket | src/Packet.java:39-41 | a data packet has type 1 and carries the given payload; it fails exactly when that payload is over 500 bytes |
| Packets.CreateEot | src/Packet.java:43-45 | an EOT is an empty packet of type 2 from the guarded constructor; it never fails |
| Packets.Encode | src/Packet.java:67-74 | the frame is exactly 512 bytes: big-endian type, seqnum and length at offsets 0, 4 and 8, the payload at offset 12, and zeros after it |
| Packets.Decode | src/Packet.java:76-84 | decoding succeeds exactly when the 12-byte header fits, the declared length is between 0 and 500, and the payload fits in the frame; each failure has the matching Java exception, except that a length too large to allocate counts as a buffer underflow; the type field is taken as read, the seqnum is reduced, and the payload is the declared slice |
| Packets.DecodeEncode | src/Packet.java:67-84 | round trip: decoding the frame of a well-formed packet gives back the same type, seqnum and payload |
| Packets.ConstructedRoundTrip | src/Packet.java:22-84 | every packet the constructor accepts survives encoding and decoding unchanged |
| Packets.EncodeInjective | src/Packet.java:67-74 | distinct well-formed packets have distinct frames |
| Packets.DecodeFullFrame | src/Packet.java:76-84 | on a 512-byte buffer, decoding fails exactly when the declared length is negative or over 500; an over-long length fails before the constructor runs, as a buffer underflow in the model |
| Packets.DecodeAcceptsAnyType | src/Packet.java:78-83 | the decoder accepts every `int` type code and reports it unchanged |
| Receiving.Step | src/Receiver.java:38-52 | EOT ends the loop and is answered by an EOT numbered `(expected+1)%32`, with nothing written; the expected number writes the payload, advances `expected` mod 32 and acks it; another number changes nothing and re-acks `expected-1` only if `expected > 0`; every ACK names the packet just before the one now expected; replies are numbered 0..31 |
| Receiving.OnFrame | src/Receiver.java:32-52 | a received buffer is handled exactly when its 12-byte header fits, its declared length is between 0 and 500 and the payload fits; a negative length aborts with that error; after the loop has ended nothing changes; otherwise the loop ends exactly on type 2, and the declared payload bytes are written exactly when the frame is not EOT and its reduced seqnum is the expected one |
| Receiving.OnFrameOfEncoded | src/Receiver.java:32-52 | a frame encoded from a well-formed packet is handled exactly as that packet is by one loop step |
| Receiving.OnFrameFullBuffer | src/Receiver.java:29-32 | on the 512-byte buffer the loop receives into, handling fails exactly when the declared length is negative or over 500, and an over-long length fails as a buffer underflow in the model |
| Receiving.Run | src/Receiver.java:28-53 | over any arrivals, the output only grows, at most one reply is sent per arrival, every reply is an empty ACK or EOT numbered 0..31, and the loop has ended exactly when an EOT arrived |
| Receiving.RunOutputIsAcceptedPayloads | src/Receiver.java:45-48 | the output is exactly the payloads of the accepted packets, concatenated in acceptance order; rejected packets contribute no bytes |
| Receiving.NothingAfterEot | src/Receiver.java:38-43 | after the first EOT, later arrivals change nothing and get no reply |
| Sending.FlattenPrefix | src/Sender.java:161-167 | the first `i` packets hold exactly the file's first `min(500 i, length)` bytes |
| Sending.PacketsOfShape | src/Sender.java:163-171 | the packet payloads concatenate to the whole file; every packet but the last holds 500 bytes; the last holds `length % 500` bytes when that is non-zero |
| Sending.CreatePacketChunk | src/Sender.java:163-171 | `createPacket(i, ...)` applied to chunk `i` of the file succeeds and builds exactly packet `i` |
| Sending.PacketsOfFields | src/Sender.java:155-171 | every packet of the array is a well-formed type-1 packet numbered by its index mod 32, and only an empty file gives no packets |
| Sending.CreatePackets | src/Sender.java:155-173 | it builds `ceil(length/500)` packets, so none for an empty file; packet `i` has type 1 and seqnum `i % 32`; the payloads are consecutive 500-byte slices plus the remainder, and they concatenate to the file |
| Sending.EotPacket | src/Sender.java:137 | the closing EOT has type 2, no payload, seqnum equal to the packet count mod 32, and survives the wire |
| Sending.AbsoluteIndexSeqNum | src/Sender.java:99 | the array packet `index + cycles*32` that is sent for window slot `index` carries seqnum `index` |
| Sending.SendStep | src/Sender.java:59-69 | a send needs the loop-head test (packets left) and the inner test (`nextSeqNum < base+10` and `nextSeqNum < 32`) to hold together; it sends the packet at the absolute index; only `nextSeqNum` grows, by one; the timer restarts exactly when the window was empty; the window invariant and the bound of 10 outstanding are kept |
| Sending.AckStep | src/Sender.java:113-129 | an ack outside `[base, base+10)` changes nothing; an accepted ack moves the absolute base to one past the acked packet, either `base = s+1` or, for `s = 31`, the next cycle with `base = nextSeqNum = 0`; completion holds exactly when the absolute base equals the packet count; otherwise the timer stops if nothing is outstanding and restarts if something is |
| Sending.AckIdempotent | src/Sender.java:113-119 | applying the same ack twice leaves the same window as applying it once, and the second application never reports completion |
| Sending.StaleWrapPassesInnerTest | src/Sender.java:59-64 | stale acks arriving while the loop waits on a full window in cycle 1 of a 50-packet file wrap it to cycle 2 without completing; the inner test then passes and the send would index packet 64, past the array, where `CanSend` is false |
| Sending.StaleAckCompletesEarly | src/Sender.java:113-122 | a late duplicate ack from the previous cycle that lies inside `[base, base+10)` is accepted, even though `nextSeqNum` is below it; on a 38-packet file it reports completion before packets 32..37 are sent, leaving `base` past `nextSeqNum` though still within the bound of 10 |
| Sending.AckPreservesInvariant | src/Sender.java:113-119 | an ack for a packet already sent in this cycle keeps `0 <= base <= nextSeqNum <= base+10` and `nextSeqNum <= 32`, and never increases the outstanding count |
| Sending.OutstandingBounded | src/Sender.java:59-119 | over any interleaving of guarded sends and acks carrying any number, stale ones included, `base` stays non-negative, `nextSeqNum` stays at most 32 and at most `base+10`, so at most 10 packets are outstanding |
| Sending.SentAcksKeepInvariant | src/Sender.java:59-119 | over any interleaving of guarded sends and acks of packets already sent in the current cycle, the full window invariant `0 <= base <= nextSeqNum <= base+10`, `nextSeqNum <= 32` is kept |
| Sending.TimeoutResend | src/Sender.java:85-91 | a timeout resends exactly the packets of slots `[base, nextSeqNum)` in order, at absolute indices `slot + cycles*32`, which is at most 10 packets |
| Transfer.ReceiverStepOnPacket | src/Receiver.java:45-51 | a receiver holding the first `k` chunks that gets packet `j` of the same file, with `|j-k| < 32`, takes it exactly when `j == k` |
| Transfer.LossyDelivery | src/Receiver.java:28-53 | under loss, duplication and reordering, when each arrival is within 32 of the receiver's progress, the output is always exactly a prefix of the file's chunks, with no gap and no duplicate |
| Transfer.WholeFileReceived | src/Receiver.java:45-48 | once every packet has been accepted, the output equals the input file |
| Transfer.TransmitTakesNext | src/Sender.java:59-69 | on a perfect link, a transmit turn whose guard holds sends packet `Sent`; the receiver, which holds every earlier packet, takes it and queues its ack, numbered `Sent mod 32` |
| Transfer.SentOneMore | src/Receiver.java:45-48 | one more packet taken in order, with its ack queued behind the earlier ones, keeps the perfect-link invariant |
| Transfer.TransmitKeepsPerfectLink | src/Sender.java:58-70 | a transmit turn keeps the perfect-link invariant, leaves the acked count alone, and raises the sent count by one exactly when the loop's guard holds |
| Transfer.InOrderAck | src/Sender.java:113-123 | the ack of packet `k`, arriving while `k` is the oldest outstanding packet, is accepted, moves the absolute base to `k+1`, keeps the sent count, and completes the transfer exactly when `k` is the last packet |
| Transfer.ListenKeepsPerfectLink | src/Sender.java:106-133 | a listen turn handles the oldest queued ack, which names the oldest outstanding packet; it keeps the invariant and raises the acked count by one exactly when an ack was queued and completion was not yet seen |
| Transfer.LinkStepKeepsPerfectLink | src/Sender.java:58-133 | a turn of either thread keeps the perfect-link invariant |
| Transfer.PerfectLinkRun | src/Sender.java:58-133 | on a perfect link, whichever thread takes the monitor at each turn: the receiver has written exactly the chunks sent so far, at most 10 packets are outstanding, and completion is seen only for a non-empty file whose every byte has been written |
| Transfer.InitialPerfectLink | src/Sender.java:56-59 | the starting state, with nothing sent or acknowledged, satisfies the perfect-link invariant for any packet array |
| Transfer.PerfectLinkNoDeadlock | src/Sender.java:59-63 | before completion of a non-empty transfer, either the transmit loop's guard holds or an ack is queued for the listener, so one of the two threads can always move; ending every wait also needs a fair scheduler |
| Transfer.EagerRun | src/Sender.java:58-63 | the schedule in which the transmit loop keeps the monitor while its guard holds, and the listener runs only while the loop waits, reaches completion with the whole file written |
| Transfer.LosslessEotExchange | src/Sender.java:137 | once the listener has seen completion on a perfect link, the EOT is numbered with the packet count mod 32; the receiver answers it with an EOT, ends, and has written exactly the input file |
| Transfer.EmptyFileSendsNothing | src/Sender.java:156-160 | an empty file yields no packets, the transmit loop's guard is false from the start, and no schedule of turns ever changes the starting state |
| Transfer.NoReAckAfterWrap | src/Receiver.java:49-51 | after 32 in-order packets, `expected` is back at 0 and a duplicate of packet 31 gets no reply, although 31 was acknowledged when it was taken |

## Notes

- The receiver's comment says it re-sends the last correct ack "iff it exists".
  The code actually suppresses the re-ack whenever `expectedSeqNum == 0`,
  including after a wrap, when ack 31 does exist. The model follows the code
  (`Transfer.NoReAckAfterWrap`).
- Any received type code other than 2 is handled as data. The receiver never
  checks for type 1.
- A sender given an empty file would be expected to send its EOT at once. In
  the code, the completion test runs only after an accepted ack
  (`src/Sender.java:113-122`). With no packets, no ack is ever solicited, so
  EOT is never reached. The model follows the code
  (`Transfer.EmptyFileSendsNothing`, and `AckStep` reports completion only on
  an accepted ack).
- A decoded frame's `length` field is checked in Java's order:
  `new byte[length]` rejects a negative length, the buffer read rejects a
  payload that overruns the frame, and only then does the constructor reject
  more than 500 bytes. On a 512-byte buffer, the last check is never the one
  that fails. A length too large for the heap makes `new byte[length]` throw
  `OutOfMemoryError` before the buffer read; the model reports that case as the
  buffer underflow (see "Left out").
- The ack window test does not compare against `nextSeqNum`, so a stale
  acknowledgment can move `base` past `nextSeqNum`
  (`Sending.StaleAckCompletesEarly`). The bound of 10 outstanding packets holds
  for any acks (`Sending.OutstandingBounded`); only `base <= nextSeqNum` needs
  acks that name packets already sent in the current cycle
  (`Sending.SentAcksKeepInvariant`).

## Left out

- Socket I/O (datagram send and receive, address and port handling) is left out. Replies and sends are returned values; received frames are parameters.
- The sender's final wait for an EOT-typed reply (reading frames until one decodes with type 2) is left out. It is socket I/O.
- The `Thread` running the ack listener, `synchronized`/`wait`/`notify`, and `java.util.Timer` scheduling, cancel and purge are left out. Each guarded transition is modelled on its own (`SendStep`, `AckStep`, `TimeoutResend`), and timer operations are returned as a `TimerAction`. Interleavings appear only as the event sequences of `Sending.OutstandingBounded` and `Sending.SentAcksKeepInvariant`, and as the turns of the perfect-link model in `Transfer` (`LinkStep`, `Schedule`, `PerfectLinkRun`), with a send blocking while `CanSend` is false. `CanSend` includes the loop-head test, which the code does not repeat after `wait()` returns (see the `Sending.SendStep` line below). The timer task reads `base`/`nextSeqNum` without the lock; that race is not modelled.
- A decode failure in the ack listener, which ends that thread, is left out. It is a thread lifecycle concern.
- File reading and writing, the `PrintWriter` logs, console output and `System.exit` are left out. They are I/O side effects. The output file is the receiver state's `output` sequence.
- `createPackets` passes each chunk through `new String(...)` to a `createPacket(int, String)` overload. That overload does not exist in the packet class, and the conversion is not byte-preserving. Chunks are modelled as byte slices handed to `createPacket(int, byte[])`.
- Command-line parsing and address resolution in both `main` methods are left out.
- Java `int` overflow of `cycles * 32` and of the packet count is not modelled. A file that fits a Java array yields fewer than 2^31 / 500 packets, so neither overflows.
- Sending.AckPreservesInvariant: assumes the ack names a packet already sent in the current cycle (`s < nextSeqNum`), because the code accepts stale acks that break the invariant (see `Sending.StaleAckCompletesEarly`).
- Sending.SendStep: its guard `CanSend` includes the loop-head test `nextSeqNum + cycles*32 < numberOfPackets`. The code does not repeat that test after `wait()` returns; it re-checks only `nextSeqNum >= base+10 || nextSeqNum >= 32`. Stale acks that wrap the cycle during a wait can make the loop-head test false while the inner test passes. The code then indexes past the packet array and throws `ArrayIndexOutOfBoundsException` (`Sending.StaleWrapPassesInnerTest`), and the model blocks that send instead. The exception comes before any packet is sent or the window changes, so the window and the packets sent agree with the model. On a perfect link, listen turns never change the sent count, and the two guards coincide.
- Sending.SentAcksKeepInvariant: drops acks that name a packet not yet sent in the current cycle, because the code accepts stale acks that break `base <= nextSeqNum`; the bound of 10 without that restriction is `Sending.OutstandingBounded`.
- Packets.Decode: a declared length too large for the heap makes Java's `new byte[length]` throw `OutOfMemoryError` before the buffer read (for example, bytes 8..12 of `7f ff ff ff`). The heap size is outside the model, so that case is reported as `BufferUnderflow`, like any length that overruns the frame.
- Transfer.PerfectLinkRun: the timer never fires on the perfect link, so no packet is resent. A slow ack that lets the timeout expire produces duplicates and re-acks, which this model does not cover. The receiver takes each packet in the turn it is sent. Delaying that changes only when its ack joins the queue, and the listener's turns already range over that.
- Transfer.LossyDelivery: assumes every arriving packet is within 32 positions of the receiver's progress, because 32 sequence numbers cannot tell further-apart packets of the same file apart.

=== FILE: bytes.dfy ===
/** Machine-level vocabulary shared by the codec, the receiver and the sender:
    raw bytes, Java's 32-bit `int`, Java's truncating remainder and the
    big-endian four-byte layout `java.nio.ByteBuffer` uses for `putInt`/`getInt`.
 */
module Bytes {

  /** One raw octet of a datagram or of the transferred file. */
  newtype byte = b: int | 0 <= b < 0x100

  const INT32_MIN: int := -0x8000_0000
  const INT32_MAX: int := 0x7fff_ffff
  const TWO_POW_32: int := 0x1_0000_0000

  /** A value of Java's `int`. */
  type Int32 = x: int | INT32_MIN <= x <= INT32_MAX

  /** The size of the protocol's sequence-number space. */
  const SEQ_NUM_MODULO: int := 32

  /** Java's `x % 32` on `int`: the remainder is truncated toward zero, so it
      takes the sign of the dividend.  Dafny's own `%` is Euclidean and agrees
      only on non-negative operands. */
  function JavaRem32(a: Int32): (r: Int32)
    ensures 0 <= a ==> 0 <= r < SEQ_NUM_MODULO && r == a % SEQ_NUM_MODULO
    ensures a < 0 ==> -SEQ_NUM_MODULO < r <= 0
    ensures (a - r) % SEQ_NUM_MODULO == 0
    ensures -SEQ_NUM_MODULO < a < SEQ_NUM_MODULO ==> r == a
  {
    if 0 <= a then a % SEQ_NUM_MODULO else -((-(a as int)) % SEQ_NUM_MODULO)
  }

  /** The two's-complement bit pattern of a Java `int`, read as unsigned. */
  function ToUnsigned(x: Int32): (u: int)
    ensures 0 <= u < TWO_POW_32
    ensures u % TWO_POW_32 == x % TWO_POW_32
  {
    if x < 0 then x + TWO_POW_32 else x
  }

  /** The inverse of `ToUnsigned`: bit patterns with the top bit set are negative. */
  function FromUnsigned(u: int): (x: Int32)
    requires 0 <= u < TWO_POW_32
    ensures x % TWO_POW_32 == u % TWO_POW_32
  {
    if u <= INT32_MAX then u else u - TWO_POW_32
  }

  /** `ByteBuffer.putInt`: four bytes, most significant first. */
  function EncodeInt32(x: Int32): (bs: seq<byte>)
    ensures |bs| == 4
  {
    var u := ToUnsigned(x);
    [(u / 0x100 / 0x100 / 0x100) as byte,
     (u / 0x100 / 0x100 % 0x100) as byte,
     (u / 0x100 % 0x100) as byte,
     (u % 0x100) as byte]
  }

  /** `ByteBuffer.getInt`: the four bytes read most significant first. */
  function DecodeInt32(bs: seq<byte>): Int32
    requires |bs| == 4
  {
    FromUnsigned(((bs[0] as int * 0x100 + bs[1] as int) * 0x100 + bs[2] as int) * 0x100 + bs[3] as int)
  }

  /** Reading back what was written gives the same `int`. */
  lemma DecodeEncodeInt32(x: Int32)
    ensures DecodeInt32(EncodeInt32(x)) == x
  {
  }

  /** Every four-byte pattern is the encoding of exactly one `int`: the layout is a bijection. */
  lemma EncodeDecodeInt32(bs: seq<byte>)
    requires |bs| == 4
    ensures EncodeInt32(DecodeInt32(bs)) == bs
  {
    var b0, b1, b2, b3 := bs[0] as int, bs[1] as int, bs[2] as int, bs[3] as int;
    var u := ((b0 * 0x100 + b1) * 0x100 + b2) * 0x100 + b3;
    assert ToUnsigned(DecodeInt32(bs)) == u;
    assert u % 0x100 == b3 && u / 0x100 == (b0 * 0x100 + b1) * 0x100 + b2;
    assert u / 0x100 % 0x100 == b2 && u / 0x100 / 0x100 == b0 * 0x100 + b1;
    assert u / 0x100 / 0x100 % 0x100 == b1 && u / 0x100 / 0x100 / 0x100 == b0;
    assert EncodeInt32(DecodeInt32(bs)) == [bs[0], bs[1], bs[2], bs[3]];
  }

  /** The bytes of several chunks laid end to end. */
  function Flatten(chunks: seq<seq<byte>>): seq<byte>
  {
    if |chunks| == 0 then [] else chunks[0] + Flatten(chunks[1..])
  }

  /** Appending one chunk appends its bytes. */
  lemma {:induction false} FlattenSnoc(chunks: seq<seq<byte>>, c: seq<byte>)
    ensures Flatten(chunks + [c]) == Flatten(chunks) + c
  {
    if |chunks| > 0 {
      assert (chunks + [c])[1..] == chunks[1..] + [c];
      FlattenSnoc(chunks[1..], c);
    } else {
      assert chunks + [c] == [c];
    }
  }
}

=== FILE: packets.dfy ===
/** The packet class shared by both ends of the transfer: the guarded
    constructor, the three public factories, and the fixed 512-byte wire frame
    (`getUDPdata` to encode, `parseUDPdata` to decode).
 */
module Packets {
  import opened Bytes

  const MAX_DATA_LENGTH: int := 500
  const FRAME_SIZE: int := 512
  /** Three big-endian `int` fields (type, seqnum, length) precede the payload. */
  const HEADER_SIZE: int := 12

  const TYPE_ACK: Int32 := 0
  const TYPE_DATA: Int32 := 1
  const TYPE_EOT: Int32 := 2

  /** A Java reference that may be `null`. */
  datatype Option<+T> = None | Some(value: T)

  /** The exceptions packet construction and decoding can raise. */
  datatype Error =
    | DataTooLarge     // the constructor's "data too large (max 500 chars)"
    | NegativeLength   // `new byte[length]` with a negative length
    | BufferUnderflow  // `ByteBuffer.getInt` or `get` ran past the end of the frame

  datatype Result<+T> = Success(value: T) | Failure(error: Error)

  /** A packet: its type code, its (already reduced) sequence number and its payload. */
  datatype Packet = Packet(ptype: Int32, seqNum: Int32, data: seq<byte>)

  /** What the guarded constructor establishes for every packet it builds. */
  predicate WellFormed(p: Packet)
  {
    && |p.data| <= MAX_DATA_LENGTH
    && -SEQ_NUM_MODULO < p.seqNum < SEQ_NUM_MODULO
  }

  /** The private constructor: rejects an oversized payload, reduces the sequence
      number with Java's `% 32`, and keeps an empty payload when given `null`. */
  function NewPacket(ptype: Int32, seqNum: Int32, data: Option<seq<byte>>): (r: Result<Packet>)
    ensures r.Failure? <==> data.Some? && |data.value| > MAX_DATA_LENGTH
    ensures r.Failure? ==> r.error == DataTooLarge
    ensures r.Success? ==> WellFormed(r.value)
    ensures r.Success? ==> r.value.ptype == ptype && r.value.seqNum == JavaRem32(seqNum)
    ensures r.Success? && data.None? ==> r.value.data == []
    ensures r.Success? && data.Some? ==> r.value.data == data.value
  {
    if data.Some? && |data.value| > MAX_DATA_LENGTH then
      Failure(DataTooLarge)
    else
      Success(Packet(ptype, JavaRem32(seqNum), if data.Some? then data.value else []))
  }

  /** `createACK`: an empty type-0 packet; it never fails. */
  function CreateAck(seqNum: Int32): (p: Packet)
    ensures NewPacket(TYPE_ACK, seqNum, Some([])) == Success(p)
    ensures p.ptype == TYPE_ACK && p.data == [] && WellFormed(p)
    ensures 0 <= seqNum ==> p.seqNum == seqNum % SEQ_NUM_MODULO
  {
    NewPacket(TYPE_ACK, seqNum, Some([])).value
  }

  /** `createPacket`: a type-1 packet carrying `data`, or the constructor's failure. */
  function CreatePacket(seqNum: Int32, data: Option<seq<byte>>): (r: Result<Packet>)
    ensures r.Success? <==> data.None? || |data.value| <= MAX_DATA_LENGTH
    ensures r.Success? ==> r.value.ptype == TYPE_DATA && r.value.seqNum == JavaRem32(seqNum)
    ensures r.Success? && data.Some? ==> r.value.data == data.value
  {
    NewPacket(TYPE_DATA, seqNum, data)
  }

  /** `createEOT`: an empty type-2 packet; it never fails. */
  function CreateEot(seqNum: Int32): (p: Packet)
    ensures NewPacket(TYPE_EOT, seqNum, Some([])) == Success(p)
    ensures p.ptype == TYPE_EOT && p.data == [] && WellFormed(p)
    ensures 0 <= seqNum ==> p.seqNum == seqNum % SEQ_NUM_MODULO
  {
    NewPacket(TYPE_EOT, seqNum, Some([])).value
  }

  function Zeros(n: nat): (z: seq<byte>)
    ensures |z| == n && forall i :: 0 <= i < n ==> z[i] == 0
  {
    seq(n, _ => 0)
  }

  /** `getUDPdata`: a fresh 512-byte buffer holding type, seqnum and length as
      big-endian `int`s, then the payload, then the buffer's zero fill. */
  function Encode(p: Packet): (frame: seq<byte>)
    requires |p.data| <= MAX_DATA_LENGTH
    ensures |frame| == FRAME_SIZE
    ensures frame[0..4] == EncodeInt32(p.ptype)
    ensures frame[4..8] == EncodeInt32(p.seqNum)
    ensures frame[8..12] == EncodeInt32(|p.data|)
    ensures frame[HEADER_SIZE..HEADER_SIZE + |p.data|] == p.data
    ensures forall i :: HEADER_SIZE + |p.data| <= i < FRAME_SIZE ==> frame[i] == 0
  {
    EncodeInt32(p.ptype) + EncodeInt32(p.seqNum) + EncodeInt32(|p.data|)
      + p.data + Zeros(FRAME_SIZE - HEADER_SIZE - |p.data|)
  }

  /** The payload length a frame declares in bytes 8..12. */
  function DeclaredLength(frame: seq<byte>): Int32
    requires HEADER_SIZE <= |frame|
  {
    DecodeInt32(frame[8..12])
  }

  /** `parseUDPdata`: reads the three header fields, allocates and fills the
      payload array, then runs the guarded constructor.  The type field is not
      checked, and bytes after the payload are ignored. */
  function Decode(frame: seq<byte>): (r: Result<Packet>)
    ensures r.Success? <==>
              && HEADER_SIZE <= |frame|
              && 0 <= DeclaredLength(frame) <= MAX_DATA_LENGTH
              && HEADER_SIZE + DeclaredLength(frame) <= |frame|
    ensures r.Failure? && HEADER_SIZE <= |frame| && DeclaredLength(frame) < 0 ==> r.error == NegativeLength
    ensures r.Failure? && HEADER_SIZE <= |frame| && 0 <= DeclaredLength(frame) ==>
              r.error == (if HEADER_SIZE + DeclaredLength(frame) <= |frame| then DataTooLarge else BufferUnderflow)
    ensures r.Failure? && |frame| < HEADER_SIZE ==> r.error == BufferUnderflow
    ensures r.Success? ==>
              && WellFormed(r.value)
              && r.value.ptype == DecodeInt32(frame[0..4])
              && r.value.seqNum == JavaRem32(DecodeInt32(frame[4..8]))
              && r.value.data == frame[HEADER_SIZE..HEADER_SIZE + DeclaredLength(frame)]
  {
    if |frame| < HEADER_SIZE then
      Failure(BufferUnderflow)
    else
      var ptype := DecodeInt32(frame[0..4]);
      var seqNum := DecodeInt32(frame[4..8]);
      var length := DeclaredLength(frame);
      if length < 0 then
        Failure(NegativeLength)
      else if |frame| < HEADER_SIZE + length then
        Failure(BufferUnderflow)
      else
        NewPacket(ptype, seqNum, Some(frame[HEADER_SIZE..HEADER_SIZE + length]))
  }

  /** Decoding an encoded well-formed packet gives back the same packet: type,
      sequence number and payload all survive the wire. */
  lemma DecodeEncode(p: Packet)
    requires WellFormed(p)
    ensures Decode(Encode(p)) == Success(p)
  {
    var frame := Encode(p);
    DecodeEncodeInt32(p.ptype);
    DecodeEncodeInt32(p.seqNum);
    DecodeEncodeInt32(|p.data|);
    assert DeclaredLength(frame) == |p.data|;
    assert JavaRem32(p.seqNum) == p.seqNum;
    assert frame[HEADER_SIZE..HEADER_SIZE + |p.data|] == p.data;
  }

  /** Every packet the constructor lets through survives the wire unchanged. */
  lemma ConstructedRoundTrip(ptype: Int32, seqNum: Int32, data: Option<seq<byte>>)
    requires NewPacket(ptype, seqNum, data).Success?
    ensures Decode(Encode(NewPacket(ptype, seqNum, data).value)) == NewPacket(ptype, seqNum, data)
  {
    DecodeEncode(NewPacket(ptype, seqNum, data).value);
  }

  /** Distinct well-formed packets have distinct frames. */
  lemma EncodeInjective(p: Packet, q: Packet)
    requires WellFormed(p) && WellFormed(q)
    requires Encode(p) == Encode(q)
    ensures p == q
  {
  }

  /** On a full 512-byte datagram buffer, decoding fails exactly when the
      declared length is negative or larger than the 500-byte maximum; an
      over-long length is caught by the buffer before the constructor sees it. */
  lemma DecodeFullFrame(frame: seq<byte>)
    requires |frame| == FRAME_SIZE
    ensures Decode(frame).Failure? <==> DeclaredLength(frame) < 0 || DeclaredLength(frame) > MAX_DATA_LENGTH
    ensures DeclaredLength(frame) > MAX_DATA_LENGTH ==> Decode(frame) == Failure(BufferUnderflow)
  {
  }

  /** The decoder accepts every type code, not only 0, 1 and 2. */
  lemma DecodeAcceptsAnyType(ptype: Int32, seqNum: Int32, data: seq<byte>)
    requires |data| <= MAX_DATA_LENGTH
    ensures Decode(Encode(Packet(ptype, seqNum, data))).Success?
    ensures Decode(Encode(Packet(ptype, seqNum, data))).value.ptype == ptype
  {
  }
}

=== FILE: receiver.dfy ===
/** The receiver's per-packet loop, with the sockets and files taken out: the
    state is the expected sequence number, the bytes written to the output file
    so far, and whether the EOT packet has ended the loop.  Packets the receiver
    sends back are returned as values instead of being put on the wire.
 */
module Receiving {
  import opened Bytes
  import opened Packets

  /** A window-relative sequence number, 0..31. */
  type SeqNum = x: int | 0 <= x < SEQ_NUM_MODULO

  datatype ReceiverState = ReceiverState(expectedSeqNum: SeqNum, output: seq<byte>, done: bool)

  /** The state before the first packet arrives: nothing expected but packet 0. */
  const Initial: ReceiverState := ReceiverState(0, [], false)

  /** The state after one packet, and the packet sent back in response, if any. */
  datatype Reply = Reply(next: ReceiverState, sent: Option<Packet>)

  /** One iteration of the receive loop.  An EOT ends the loop and is answered by
      an EOT; a packet carrying the expected number is written out and
      acknowledged; any other packet re-acknowledges the last in-order packet,
      except that nothing is sent while the expected number is 0 (also after the
      sequence numbers have wrapped).  Any type code other than 2 counts as data.
      Once the loop has ended, nothing further is processed. */
  function Step(s: ReceiverState, p: Packet): (r: Reply)
    ensures s.done ==> r == Reply(s, None)
    ensures !s.done && p.ptype == TYPE_EOT ==>
              && r.next.done
              && r.next.output == s.output
              && r.sent.Some? && r.sent.value.ptype == TYPE_EOT
              && r.sent.value.seqNum == (s.expectedSeqNum + 1) % SEQ_NUM_MODULO
    ensures !s.done && p.ptype != TYPE_EOT ==>
              && !r.next.done
              && r.next.output == s.output + (if p.seqNum == s.expectedSeqNum then p.data else [])
              && r.next.expectedSeqNum ==
                   (if p.seqNum == s.expectedSeqNum then (s.expectedSeqNum + 1) % SEQ_NUM_MODULO else s.expectedSeqNum)
              && (r.sent.Some? <==> p.seqNum == s.expectedSeqNum || s.expectedSeqNum > 0)
    ensures r.sent.Some? ==> r.sent.value.ptype == TYPE_ACK || r.sent.value.ptype == TYPE_EOT
    ensures r.sent.Some? && r.sent.value.ptype == TYPE_ACK ==>
              r.sent.value == CreateAck((r.next.expectedSeqNum + SEQ_NUM_MODULO - 1) % SEQ_NUM_MODULO)
    ensures r.sent.Some? ==> 0 <= r.sent.value.seqNum < SEQ_NUM_MODULO && r.sent.value.data == []
  {
    var e := s.expectedSeqNum;
    if s.done then
      Reply(s, None)
    else if p.ptype == TYPE_EOT then
      Reply(s.(done := true), Some(CreateEot((e + 1) % SEQ_NUM_MODULO)))
    else if p.seqNum == e then
      Reply(ReceiverState((e + 1) % SEQ_NUM_MODULO, s.output + p.data, false), Some(CreateAck(p.seqNum)))
    else if e > 0 then
      Reply(s, Some(CreateAck((e + 31) % SEQ_NUM_MODULO)))
    else
      Reply(s, None)
  }

  /** True when `Step` would write `p`'s payload out. */
  predicate Accepts(s: ReceiverState, p: Packet)
  {
    !s.done && p.ptype != TYPE_EOT && p.seqNum == s.expectedSeqNum
  }

  /** `parseUDPdata` on the received buffer followed by one loop iteration; a
      frame that does not decode aborts the receiver with the decoder's error. */
  function OnFrame(s: ReceiverState, frame: seq<byte>): (r: Result<Reply>)
    ensures r.Success? <==>
              && HEADER_SIZE <= |frame|
              && 0 <= DeclaredLength(frame) <= MAX_DATA_LENGTH
              && HEADER_SIZE + DeclaredLength(frame) <= |frame|
    ensures r.Failure? && HEADER_SIZE <= |frame| && DeclaredLength(frame) < 0 ==> r.error == NegativeLength
    ensures r.Success? && s.done ==> r.value == Reply(s, None)
    ensures r.Success? && !s.done ==>
              var eot := DecodeInt32(frame[0..4]) == TYPE_EOT;
              var inOrder := JavaRem32(DecodeInt32(frame[4..8])) == s.expectedSeqNum;
              && r.value.next.done == eot
              && r.value.next.output ==
                   s.output + (if !eot && inOrder then frame[HEADER_SIZE..HEADER_SIZE + DeclaredLength(frame)] else [])
  {
    match Decode(frame)
    case Failure(err) => Failure(err)
    case Success(p) => Success(Step(s, p))
  }

  /** A frame the sender built from a well-formed packet is handled exactly as
      that packet: the wire adds and loses nothing. */
  lemma OnFrameOfEncoded(s: ReceiverState, p: Packet)
    requires WellFormed(p)
    ensures OnFrame(s, Encode(p)) == Success(Step(s, p))
  {
    DecodeEncode(p);
  }

  /** Every datagram buffer the receive loop hands over is 512 bytes long; on
      such a buffer the loop aborts exactly when the declared payload length is
      negative or over 500, and an over-long length aborts with the buffer's
      underflow rather than the constructor's size check. */
  lemma OnFrameFullBuffer(s: ReceiverState, frame: seq<byte>)
    requires |frame| == FRAME_SIZE
    ensures OnFrame(s, frame).Failure? <==> DeclaredLength(frame) < 0 || DeclaredLength(frame) > MAX_DATA_LENGTH
    ensures DeclaredLength(frame) > MAX_DATA_LENGTH ==> OnFrame(s, frame) == Failure(BufferUnderflow)
  {
    DecodeFullFrame(frame);
  }

  /** The payloads of the packets a receiver in state `s` accepts from `ps`, in arrival order. */
  function AcceptedPayloads(s: ReceiverState, ps: seq<Packet>): seq<seq<byte>>
    decreases |ps|
  {
    if |ps| == 0 then []
    else
      var rest := AcceptedPayloads(Step(s, ps[0]).next, ps[1..]);
      if Accepts(s, ps[0]) then [ps[0].data] + rest else rest
  }

  /** The loop run over a sequence of arriving packets: the final state and every
      packet sent back, in order.  The output only ever grows, every reply is an
      empty ACK or EOT with a sequence number in 0..31, at most one reply is sent
      per arrival, and once the EOT has been seen the state no longer changes. */
  function Run(s: ReceiverState, ps: seq<Packet>): (r: (ReceiverState, seq<Packet>))
    ensures s.output <= r.0.output
    ensures |r.1| <= |ps|
    ensures forall i :: 0 <= i < |r.1| ==>
              && (r.1[i].ptype == TYPE_ACK || r.1[i].ptype == TYPE_EOT)
              && 0 <= r.1[i].seqNum < SEQ_NUM_MODULO
              && r.1[i].data == []
    ensures s.done ==> r == (s, [])
    ensures r.0.done <==> s.done || exists i :: 0 <= i < |ps| && ps[i].ptype == TYPE_EOT
    decreases |ps|
  {
    if |ps| == 0 then (s, [])
    else
      var step := Step(s, ps[0]);
      var rest := Run(step.next, ps[1..]);
      (rest.0, (if step.sent.Some? then [step.sent.value] else []) + rest.1)
  }

  /** What the receiver writes is exactly its earlier output followed by the
      payloads of the accepted packets, in the order they were accepted;
      rejected packets contribute nothing. */
  lemma {:induction false} RunOutputIsAcceptedPayloads(s: ReceiverState, ps: seq<Packet>)
    ensures Run(s, ps).0.output == s.output + Flatten(AcceptedPayloads(s, ps))
    decreases |ps|
  {
    if |ps| > 0 {
      var next := Step(s, ps[0]).next;
      RunOutputIsAcceptedPayloads(next, ps[1..]);
      if Accepts(s, ps[0]) {
        assert Flatten(AcceptedPayloads(s, ps)) == ps[0].data + Flatten(AcceptedPayloads(next, ps[1..]));
      } else {
        assert next.output == s.output;
      }
    }
  }

  /** After the first EOT in the arrivals, later packets change nothing and get no reply. */
  lemma {:induction false} NothingAfterEot(s: ReceiverState, ps: seq<Packet>, qs: seq<Packet>)
    requires Run(s, ps).0.done
    ensures Run(s, ps + qs) == Run(s, ps)
    decreases |ps|
  {
    if |ps| == 0 {
      assert ps + qs == qs;
    } else {
      var step := Step(s, ps[0]);
      assert (ps + qs)[0] == ps[0];
      assert (ps + qs)[1..] == ps[1..] + qs;
      NothingAfterEot(step.next, ps[1..], qs);
    }
  }
}

=== FILE: sender.dfy ===
/** The sender's sequential pieces, each as a separate state transition with the
    threads, the lock and the timer taken out: splitting the file into packets,
    one step of the transmit loop, one accepted-or-discarded acknowledgment, the
    packets a timeout resends, and the final EOT.
 */
module Sending {
  import opened Bytes
  import opened Packets

  const WINDOW_SIZE: int := 10

  // ---------------------------------------------------------------------------
  // Splitting the file into packets
  // ---------------------------------------------------------------------------

  /** Whole 500-byte packets, plus one more for a non-empty remainder. */
  function PacketCount(length: nat): nat
  {
    length / MAX_DATA_LENGTH + (if length % MAX_DATA_LENGTH > 0 then 1 else 0)
  }

  /** Where chunk `i` of a file of `length` bytes ends. */
  function ChunkEnd(length: nat, i: nat): nat
  {
    if MAX_DATA_LENGTH * (i + 1) <= length then MAX_DATA_LENGTH * (i + 1) else length
  }

  /** The data packet built for absolute index `i`: the bytes from `500 i` up to
      the next multiple of 500 or the end of the file, numbered `i % 32`. */
  function ChunkPacket(content: seq<byte>, i: nat): (p: Packet)
    requires i < PacketCount(|content|)
    ensures MAX_DATA_LENGTH * i < ChunkEnd(|content|, i) <= |content|
    ensures p.ptype == TYPE_DATA && p.seqNum == i % SEQ_NUM_MODULO && WellFormed(p)
    ensures |p.data| == (if i < |content| / MAX_DATA_LENGTH then MAX_DATA_LENGTH else |content| % MAX_DATA_LENGTH)
  {
    Packet(TYPE_DATA, i % SEQ_NUM_MODULO, content[MAX_DATA_LENGTH * i..ChunkEnd(|content|, i)])
  }

  /** `packets` is exactly the packet array built from `content`. */
  predicate PacketsOf(content: seq<byte>, packets: seq<Packet>)
  {
    && |packets| == PacketCount(|content|)
    && forall i :: 0 <= i < |packets| ==> packets[i] == ChunkPacket(content, i)
  }

  /** The payloads of a packet sequence, in order. */
  function Payloads(packets: seq<Packet>): (r: seq<seq<byte>>)
    ensures |r| == |packets|
    ensures forall i :: 0 <= i < |packets| ==> r[i] == packets[i].data
  {
    seq(|packets|, i requires 0 <= i < |packets| => packets[i].data)
  }

  /** The first `i` packets laid end to end are the file up to the end of chunk `i - 1`. */
  lemma {:induction false} FlattenPrefix(content: seq<byte>, packets: seq<Packet>)
    requires |packets| <= PacketCount(|content|)
    requires forall j :: 0 <= j < |packets| ==> packets[j] == ChunkPacket(content, j)
    ensures Flatten(Payloads(packets)) == content[..if |packets| == 0 then 0 else ChunkEnd(|content|, |packets| - 1)]
    decreases |packets|
  {
    var n := |packets|;
    if n > 0 {
      var init := packets[..n - 1];
      FlattenPrefix(content, init);
      assert Payloads(packets) == Payloads(init) + [packets[n - 1].data];
      FlattenSnoc(Payloads(init), packets[n - 1].data);
      var from := if n - 1 == 0 then 0 else ChunkEnd(|content|, n - 2);
      assert from == MAX_DATA_LENGTH * (n - 1);
      assert content[..ChunkEnd(|content|, n - 1)] == content[..from] + content[from..ChunkEnd(|content|, n - 1)];
    }
  }

  /** The whole packet array carries the whole file, every packet but the last is
      full, and the last carries the remainder when there is one. */
  lemma PacketsOfShape(content: seq<byte>, packets: seq<Packet>)
    requires PacketsOf(content, packets)
    ensures Flatten(Payloads(packets)) == content
    ensures forall i :: 0 <= i < |packets| - 1 ==> |packets[i].data| == MAX_DATA_LENGTH
    ensures 0 < |packets| && |content| % MAX_DATA_LENGTH != 0 ==>
              |packets[|packets| - 1].data| == |content| % MAX_DATA_LENGTH
  {
    FlattenPrefix(content, packets);
    if |packets| > 0 {
      assert ChunkEnd(|content|, |packets| - 1) == |content|;
    }
  }

  /** `createPacket(i, ...)` on chunk `i` of the file builds exactly packet `i`. */
  lemma CreatePacketChunk(content: seq<byte>, i: nat)
    requires i < PacketCount(|content|) && i <= INT32_MAX
    ensures CreatePacket(i, Some(content[MAX_DATA_LENGTH * i..ChunkEnd(|content|, i)])) == Success(ChunkPacket(content, i))
  {
  }

  /** Every packet of the array is a well-formed data packet numbered by its index
      modulo 32, and only an empty file has no packets. */
  lemma PacketsOfFields(content: seq<byte>, packets: seq<Packet>)
    requires PacketsOf(content, packets)
    ensures |content| == 0 <==> |packets| == 0
    ensures forall i :: 0 <= i < |packets| ==>
              && packets[i].ptype == TYPE_DATA
              && packets[i].seqNum == i % SEQ_NUM_MODULO
              && WellFormed(packets[i])
  {
  }

  /** `createPackets`: whole 500-byte chunks first, then the remainder chunk if
      there is one, packet `i` built with `createPacket(i, ...)`. */
  method CreatePackets(content: seq<byte>) returns (packets: seq<Packet>)
    requires |content| <= INT32_MAX
    ensures PacketsOf(content, packets)
    ensures |content| == 0 <==> |packets| == 0
    ensures forall i :: 0 <= i < |packets| ==>
              && packets[i].ptype == TYPE_DATA
              && packets[i].seqNum == i % SEQ_NUM_MODULO
              && WellFormed(packets[i])
    ensures forall i :: 0 <= i < |packets| - 1 ==> |packets[i].data| == MAX_DATA_LENGTH
    ensures 0 < |packets| && |content| % MAX_DATA_LENGTH != 0 ==>
              |packets[|packets| - 1].data| == |content| % MAX_DATA_LENGTH
    ensures Flatten(Payloads(packets)) == content
  {
    var wholePackets := |content| / MAX_DATA_LENGTH;
    var smallPacketLength := |content| % MAX_DATA_LENGTH;
    packets := [];
    var offset := 0;
    var i := 0;
    while i < wholePackets
      invariant 0 <= i <= wholePackets
      invariant offset == MAX_DATA_LENGTH * i
      invariant |packets| == i
      invariant forall j :: 0 <= j < i ==> packets[j] == ChunkPacket(content, j)
    {
      assert ChunkEnd(|content|, i) == offset + MAX_DATA_LENGTH;
      CreatePacketChunk(content, i);
      var p := CreatePacket(i, Some(content[offset..offset + MAX_DATA_LENGTH]));
      packets := packets + [p.value];
      offset := offset + MAX_DATA_LENGTH;
      i := i + 1;
    }
    if smallPacketLength > 0 {
      assert ChunkEnd(|content|, i) == |content|;
      CreatePacketChunk(content, i);
      var p := CreatePacket(i, Some(content[offset..]));
      packets := packets + [p.value];
    }
    assert PacketsOf(content, packets);
    PacketsOfFields(content, packets);
    PacketsOfShape(content, packets);
  }

  /** The EOT sent once every packet is acknowledged: it carries the packet count modulo 32. */
  function EotPacket(numberOfPackets: Int32): (p: Packet)
    requires 0 <= numberOfPackets
    ensures p.ptype == TYPE_EOT && p.data == []
    ensures p.seqNum == numberOfPackets % SEQ_NUM_MODULO
    ensures Decode(Encode(p)) == Success(p)
  {
    var p := CreateEot(numberOfPackets % SEQ_NUM_MODULO);
    DecodeEncode(p);
    p
  }

  // ---------------------------------------------------------------------------
  // The sliding window
  // ---------------------------------------------------------------------------

  /** `base` and `nextSeqNum` are window-relative (0..32); `cycles` counts the
      completed passes through the 32 sequence numbers. */
  datatype Window = Window(base: int, nextSeqNum: int, cycles: nat)

  const InitialWindow: Window := Window(0, 0, 0)

  /** What an event does to the retransmission timer. */
  datatype TimerAction = KeepTimer | StopTimer | RestartTimer

  /** `sendPacket`'s mapping from a window-relative index to the packet array. */
  function AbsoluteIndex(index: int, cycles: nat): int
  {
    index + cycles * SEQ_NUM_MODULO
  }

  /** The packet sent for window slot `index` in cycle `cycles` carries sequence number `index`. */
  lemma AbsoluteIndexSeqNum(content: seq<byte>, packets: seq<Packet>, index: int, cycles: nat)
    requires PacketsOf(content, packets)
    requires 0 <= index < SEQ_NUM_MODULO
    requires AbsoluteIndex(index, cycles) < |packets|
    ensures packets[AbsoluteIndex(index, cycles)].seqNum == index
  {
  }

  /** Invariant of every state the two loops can reach when acknowledgments only
      name packets already sent: the window is ordered, holds at most ten
      outstanding packets, and does not run past the sequence space. */
  predicate WindowInvariant(w: Window)
  {
    && 0 <= w.base <= w.nextSeqNum <= w.base + WINDOW_SIZE
    && w.nextSeqNum <= SEQ_NUM_MODULO
  }

  /** The transmit loop's guard: packets remain (the outer loop), the window is not full
      and the cycle is not exhausted (the inner wait). */
  predicate CanSend(w: Window, numberOfPackets: nat)
  {
    && AbsoluteIndex(w.nextSeqNum, w.cycles) < numberOfPackets
    && w.nextSeqNum < w.base + WINDOW_SIZE
    && w.nextSeqNum < SEQ_NUM_MODULO
  }

  datatype SendResult = SendResult(next: Window, sent: Packet, timer: TimerAction)

  /** One pass of the transmit loop: send the packet in slot `nextSeqNum`, restart
      the timer if it is the first outstanding packet, and move `nextSeqNum` on. */
  function SendStep(w: Window, packets: seq<Packet>): (r: SendResult)
    requires 0 <= w.nextSeqNum
    requires CanSend(w, |packets|)
    ensures r.sent == packets[AbsoluteIndex(w.nextSeqNum, w.cycles)]
    ensures r.next.base == w.base && r.next.cycles == w.cycles
    ensures r.next.nextSeqNum - r.next.base == w.nextSeqNum - w.base + 1
    ensures r.timer == RestartTimer <==> w.base == w.nextSeqNum
    ensures r.timer != StopTimer
    ensures WindowInvariant(w) ==> WindowInvariant(r.next)
  {
    var sent := packets[AbsoluteIndex(w.nextSeqNum, w.cycles)];
    var timer := if w.base == w.nextSeqNum then RestartTimer else KeepTimer;
    SendResult(w.(nextSeqNum := w.nextSeqNum + 1), sent, timer)
  }

  /** The transfer is complete exactly when the absolute base reaches the packet count. */
  predicate Complete(w: Window, numberOfPackets: nat)
  {
    AbsoluteIndex(w.base, w.cycles) == numberOfPackets
  }

  datatype AckResult = AckResult(next: Window, complete: bool, timer: TimerAction)

  /** True when ack `s` lies in the window `[base, base + 10)`; others are discarded. */
  predicate AckInWindow(w: Window, s: int)
  {
    w.base <= s < w.base + WINDOW_SIZE
  }

  /** The ack listener's handling of one acknowledgment `s` (already decoded).
      A discarded ack changes nothing.  An accepted one is cumulative: the
      absolute base moves to one past the acknowledged packet, which for
      `s == 31` means the next cycle starts with an empty window.  The transfer
      is complete when the absolute base reaches the packet count; otherwise the
      timer is stopped when nothing is outstanding and restarted when something is. */
  function AckStep(w: Window, numberOfPackets: nat, s: int): (r: AckResult)
    ensures !AckInWindow(w, s) ==> r == AckResult(w, false, KeepTimer)
    ensures AckInWindow(w, s) ==>
              && AbsoluteIndex(r.next.base, r.next.cycles) == AbsoluteIndex(s, w.cycles) + 1
              && AbsoluteIndex(w.base, w.cycles) < AbsoluteIndex(r.next.base, r.next.cycles)
    ensures AckInWindow(w, s) && 0 <= w.base && s < SEQ_NUM_MODULO ==> 0 <= r.next.base < SEQ_NUM_MODULO
    ensures AckInWindow(w, s) && s != SEQ_NUM_MODULO - 1 ==> r.next == w.(base := s + 1)
    ensures AckInWindow(w, s) && s == SEQ_NUM_MODULO - 1 ==> r.next == Window(0, 0, w.cycles + 1)
    ensures r.complete <==> AckInWindow(w, s) && Complete(r.next, numberOfPackets)
    ensures AckInWindow(w, s) && !r.complete ==>
              r.timer == (if r.next.base == r.next.nextSeqNum then StopTimer else RestartTimer)
    ensures r.complete ==> r.timer == KeepTimer
  {
    if AckInWindow(w, s) then
      var next :=
        if s == SEQ_NUM_MODULO - 1 then Window(0, 0, w.cycles + 1)
        else w.(base := s + 1);
      if AbsoluteIndex(next.base, next.cycles) == numberOfPackets then
        AckResult(next, true, KeepTimer)
      else if next.base == next.nextSeqNum then
        AckResult(next, false, StopTimer)
      else
        AckResult(next, false, RestartTimer)
    else
      AckResult(w, false, KeepTimer)
  }

  /** Acknowledging the same packet twice leaves the window as acknowledging it once. */
  lemma AckIdempotent(w: Window, numberOfPackets: nat, s: int)
    ensures AckStep(AckStep(w, numberOfPackets, s).next, numberOfPackets, s).next
            == AckStep(w, numberOfPackets, s).next
    ensures !AckStep(AckStep(w, numberOfPackets, s).next, numberOfPackets, s).complete
  {
  }

  /** Acceptance tests only the window `[base, base + 10)`, not `nextSeqNum`: a
      late duplicate ack 5 from the previous cycle, arriving just after the
      wrap to cycle 1 of a 38-packet file, is accepted and completes the
      transfer although packets 32..37 have not been sent. */
  lemma StaleAckCompletesEarly()
    ensures var w := Window(0, 0, 1);
            && AckStep(w, 38, 5).complete
            && AbsoluteIndex(w.nextSeqNum, w.cycles) < 38
            && !WindowInvariant(AckStep(w, 38, 5).next)
            && WindowBounded(AckStep(w, 38, 5).next)
  {
  }

  /** The transmit loop tests `nextSeqNum + cycles * 32 < numberOfPackets` only
      at its head, not again when `wait()` returns.  In cycle 1 of a 50-packet
      file the window `[0, 10)` is full, so the loop waits; stale acks 9, 19, 29
      and 31 from cycle 0 then arrive, and the last one wraps to cycle 2 without
      completing.  The inner test now lets the loop send slot 0, which indexes
      packet 64, past the end of the array; `CanSend`, the guard of `SendStep`,
      is false there. */
  lemma StaleWrapPassesInnerTest()
    ensures var w0 := Window(0, 10, 1);
            var a1 := AckStep(w0, 50, 9);
            var a2 := AckStep(a1.next, 50, 19);
            var a3 := AckStep(a2.next, 50, 29);
            var a4 := AckStep(a3.next, 50, 31);
            && AbsoluteIndex(w0.nextSeqNum, w0.cycles) < 50
            && w0.nextSeqNum >= w0.base + WINDOW_SIZE
            && !a1.complete && !a2.complete && !a3.complete && !a4.complete
            && a4.next == Window(0, 0, 2)
            && !(a4.next.nextSeqNum >= a4.next.base + WINDOW_SIZE || a4.next.nextSeqNum >= SEQ_NUM_MODULO)
            && AbsoluteIndex(a4.next.nextSeqNum, a4.next.cycles) == 64
            && !CanSend(a4.next, 50)
  {
  }

  /** An ack for a packet already sent in this cycle keeps the window invariant:
      the window only shrinks from the front, or is emptied by a wrap. */
  lemma AckPreservesInvariant(w: Window, numberOfPackets: nat, s: int)
    requires WindowInvariant(w)
    requires s < w.nextSeqNum
    ensures WindowInvariant(AckStep(w, numberOfPackets, s).next)
    ensures AckStep(w, numberOfPackets, s).next.nextSeqNum - AckStep(w, numberOfPackets, s).next.base
            <= w.nextSeqNum - w.base
  {
  }

  /** The part of the window invariant that holds whatever acks arrive, stale
      ones included: `base` is a valid slot and at most 10 packets, all within
      the current cycle, lie between `base` and `nextSeqNum`. */
  predicate WindowBounded(w: Window)
  {
    && 0 <= w.base
    && w.nextSeqNum <= w.base + WINDOW_SIZE
    && w.nextSeqNum <= SEQ_NUM_MODULO
  }

  /** One event of a schedule: `None` is an attempted send, `Some(s)` is ack `s`
      arriving, whatever its number.  A send whose guard is false blocks and
      changes nothing. */
  function ReplayOne(w: Window, packets: seq<Packet>, event: Option<int>): (r: Window)
    ensures event.None? && 0 <= w.nextSeqNum && CanSend(w, |packets|) ==> r == SendStep(w, packets).next
    ensures event.None? && !(0 <= w.nextSeqNum && CanSend(w, |packets|)) ==> r == w
    ensures event.Some? ==> r == AckStep(w, |packets|, event.value).next
    ensures WindowBounded(w) ==> WindowBounded(r)
  {
    match event
    case None =>
      if 0 <= w.nextSeqNum && CanSend(w, |packets|) then SendStep(w, packets).next else w
    case Some(s) =>
      AckStep(w, |packets|, s).next
  }

  function Replay(w: Window, packets: seq<Packet>, events: seq<Option<int>>): Window
    decreases |events|
  {
    if |events| == 0 then w else Replay(ReplayOne(w, packets, events[0]), packets, events[1..])
  }

  /** `nextSeqNum - base` never exceeds the window size, whatever interleaving of
      guarded sends and acknowledgments, with any sequence numbers, occurs. */
  lemma {:induction false} OutstandingBounded(w: Window, packets: seq<Packet>, events: seq<Option<int>>)
    requires WindowBounded(w)
    ensures WindowBounded(Replay(w, packets, events))
    decreases |events|
  {
    if |events| > 0 {
      OutstandingBounded(ReplayOne(w, packets, events[0]), packets, events[1..]);
    }
  }

  /** Like `ReplayOne`, but an ack naming a packet not yet sent in this cycle is
      dropped by the schedule. */
  function ReplaySentOne(w: Window, packets: seq<Packet>, event: Option<int>): Window
  {
    match event
    case None => ReplayOne(w, packets, event)
    case Some(s) => if s < w.nextSeqNum then AckStep(w, |packets|, s).next else w
  }

  function ReplaySent(w: Window, packets: seq<Packet>, events: seq<Option<int>>): Window
    decreases |events|
  {
    if |events| == 0 then w else ReplaySent(ReplaySentOne(w, packets, events[0]), packets, events[1..])
  }

  /** When every ack names a packet already sent in this cycle, the whole window
      invariant survives, `base <= nextSeqNum` included. */
  lemma {:induction false} SentAcksKeepInvariant(w: Window, packets: seq<Packet>, events: seq<Option<int>>)
    requires WindowInvariant(w)
    ensures WindowInvariant(ReplaySent(w, packets, events))
    decreases |events|
  {
    if |events| > 0 {
      if events[0].Some? && events[0].value < w.nextSeqNum {
        AckPreservesInvariant(w, |packets|, events[0].value);
      }
      SentAcksKeepInvariant(ReplaySentOne(w, packets, events[0]), packets, events[1..]);
    }
  }

  /** On timeout, every packet in window slots `[base, nextSeqNum)` is resent, in order. */
  method TimeoutResend(w: Window, packets: seq<Packet>) returns (resent: seq<Packet>)
    requires w.base < w.nextSeqNum ==>
               0 <= AbsoluteIndex(w.base, w.cycles) && AbsoluteIndex(w.nextSeqNum, w.cycles) <= |packets|
    ensures |resent| == (if w.base < w.nextSeqNum then w.nextSeqNum - w.base else 0)
    ensures forall k :: 0 <= k < |resent| ==> resent[k] == packets[AbsoluteIndex(w.base + k, w.cycles)]
    ensures WindowInvariant(w) ==> |resent| <= WINDOW_SIZE
  {
    resent := [];
    var i := w.base;
    while i < w.nextSeqNum
      invariant i == w.base || w.base < i <= w.nextSeqNum
      invariant |resent| == (if w.base < i then i - w.base else 0)
      invariant forall k :: 0 <= k < |resent| ==> resent[k] == packets[AbsoluteIndex(w.base + k, w.cycles)]
    {
      resent := resent + [packets[AbsoluteIndex(i, w.cycles)]];
      i := i + 1;
    }
  }
}

=== FILE: transfer.dfy ===
/** Properties that need both ends at once: what the receiver writes when it is
    fed packets built by the sender, over a perfect link and over a lossy,
    duplicating, reordering one.
 */
module Transfer {
  import opened Bytes
  import opened Packets
  import opened Receiving
  import opened Sending

  /** The receiver state after it has accepted the first `k` packets, in order. */
  function ReceivedPrefix(packets: seq<Packet>, k: nat): ReceiverState
    requires k <= |packets|
  {
    ReceiverState(k % SEQ_NUM_MODULO, Flatten(Payloads(packets[..k])), false)
  }

  /** Accepting packet `k` extends the written bytes by packet `k`'s payload. */
  lemma PrefixExtends(packets: seq<Packet>, k: nat)
    requires k < |packets|
    ensures Flatten(Payloads(packets[..k + 1])) == Flatten(Payloads(packets[..k])) + packets[k].data
  {
    assert Payloads(packets[..k + 1]) == Payloads(packets[..k]) + [packets[k].data];
    FlattenSnoc(Payloads(packets[..k]), packets[k].data);
  }

  /** Packet `k`, arriving when it is the one expected, is written out. */
  lemma AcceptsNext(packets: seq<Packet>, k: nat)
    requires k < |packets|
    requires packets[k].ptype == TYPE_DATA && packets[k].seqNum == k % SEQ_NUM_MODULO
    ensures Step(ReceivedPrefix(packets, k), packets[k]).next == ReceivedPrefix(packets, k + 1)
  {
    PrefixExtends(packets, k);
  }

  /** A data packet whose number is not the expected one changes nothing. */
  lemma IgnoresOther(packets: seq<Packet>, k: nat, p: Packet)
    requires k <= |packets|
    requires p.ptype == TYPE_DATA && p.seqNum != k % SEQ_NUM_MODULO
    ensures Step(ReceivedPrefix(packets, k), p).next == ReceivedPrefix(packets, k)
  {
  }

  /** A receiver that has accepted packets `0..k-1` and gets packet `j` of the
      same file, with `j` fewer than 32 positions from `k`, accepts it exactly
      when `j == k`: a stale duplicate or an early packet changes nothing. */
  lemma ReceiverStepOnPacket(content: seq<byte>, packets: seq<Packet>, k: nat, j: nat)
    requires PacketsOf(content, packets)
    requires k <= |packets| && j < |packets|
    requires k - SEQ_NUM_MODULO < j < k + SEQ_NUM_MODULO
    ensures Step(ReceivedPrefix(packets, k), packets[j]).next ==
              if j == k then ReceivedPrefix(packets, k + 1) else ReceivedPrefix(packets, k)
  {
    assert packets[j] == ChunkPacket(content, j);
    if j == k {
      AcceptsNext(packets, k);
    } else {
      CloseDistinctResidues(j, k);
      IgnoresOther(packets, k, packets[j]);
    }
  }

  /** Two different numbers less than 32 apart have different residues modulo 32. */
  lemma CloseDistinctResidues(j: int, k: int)
    requires j != k
    requires k - SEQ_NUM_MODULO < j < k + SEQ_NUM_MODULO
    ensures j % SEQ_NUM_MODULO != k % SEQ_NUM_MODULO
  {
  }

  /** How many packets in order a receiver has accepted after the arrivals
      `arrivals` (given as absolute packet indices), starting from `k`. */
  function Progress(k: nat, arrivals: seq<nat>): nat
    decreases |arrivals|
  {
    if |arrivals| == 0 then k
    else Progress(if arrivals[0] == k then k + 1 else k, arrivals[1..])
  }

  /** Every arriving packet is fewer than 32 positions from the next one the
      receiver needs at the moment it arrives: the condition under which 32
      sequence numbers tell packets apart. */
  predicate NearProgress(k: nat, arrivals: seq<nat>)
    decreases |arrivals|
  {
    |arrivals| == 0 ||
      (&& k - SEQ_NUM_MODULO < arrivals[0] < k + SEQ_NUM_MODULO
       && NearProgress(if arrivals[0] == k then k + 1 else k, arrivals[1..]))
  }

  /** The packets with the given absolute indices, in arrival order. */
  function Arrive(packets: seq<Packet>, arrivals: seq<nat>): (r: seq<Packet>)
    requires forall i :: 0 <= i < |arrivals| ==> arrivals[i] < |packets|
    ensures |r| == |arrivals|
    ensures forall i :: 0 <= i < |arrivals| ==> r[i] == packets[arrivals[i]]
  {
    seq(|arrivals|, i requires 0 <= i < |arrivals| => packets[arrivals[i]])
  }

  /** In-order delivery under loss, duplication and reordering: whatever packets
      of the file arrive, in whatever order and multiplicity, provided each is
      within 32 positions of the receiver's progress, the receiver's output is
      always exactly the first `Progress` chunks of the file, with no gap and no
      duplicate. */
  lemma {:induction false} LossyDelivery(content: seq<byte>, packets: seq<Packet>, k: nat, arrivals: seq<nat>)
    requires PacketsOf(content, packets)
    requires k <= |packets|
    requires forall i :: 0 <= i < |arrivals| ==> arrivals[i] < |packets|
    requires NearProgress(k, arrivals)
    ensures Progress(k, arrivals) <= |packets|
    ensures Run(ReceivedPrefix(packets, k), Arrive(packets, arrivals)).0 ==
              ReceivedPrefix(packets, Progress(k, arrivals))
    decreases |arrivals|
  {
    if |arrivals| > 0 {
      var j := arrivals[0];
      ReceiverStepOnPacket(content, packets, k, j);
      var k' := if j == k then k + 1 else k;
      assert Arrive(packets, arrivals)[1..] == Arrive(packets, arrivals[1..]);
      LossyDelivery(content, packets, k', arrivals[1..]);
    }
  }

  /** Once every packet of the file has been accepted, the receiver's output is the file. */
  lemma WholeFileReceived(content: seq<byte>, packets: seq<Packet>)
    requires PacketsOf(content, packets)
    ensures ReceivedPrefix(packets, |packets|).output == content
  {
    assert packets[..|packets|] == packets;
    PacketsOfShape(content, packets);
  }

  // ---------------------------------------------------------------------------
  // Both ends over a perfect link
  // ---------------------------------------------------------------------------

  /** Both ends over a link that loses, duplicates and reorders nothing: the
      sender's window, the receiver's state, the acknowledgments on their way
      back (oldest first), and whether the ack listener has seen completion. */
  datatype Link = Link(window: Window, receiver: ReceiverState, acks: seq<Int32>, complete: bool)

  const InitialLink: Link := Link(InitialWindow, Initial, [], false)

  /** Which thread takes the sender's monitor next: the transmit loop or the ack listener. */
  datatype Turn = Transmit | Listen

  /** One turn.  The transmit loop sends its next packet when its guard allows
      (otherwise it waits), and the receiver handles that packet at once, queuing
      its reply.  The ack listener handles the oldest queued acknowledgment;
      after completion it has left its loop and handles nothing. */
  function LinkStep(st: Link, packets: seq<Packet>, turn: Turn): Link
  {
    match turn
    case Transmit =>
      if 0 <= st.window.nextSeqNum && CanSend(st.window, |packets|) then
        var send := SendStep(st.window, packets);
        var reply := Step(st.receiver, send.sent);
        var acks := st.acks + if reply.sent.Some? then [reply.sent.value.seqNum] else [];
        Link(send.next, reply.next, acks, st.complete)
      else
        st
    case Listen =>
      if !st.complete && |st.acks| > 0 then
        var r := AckStep(st.window, |packets|, st.acks[0]);
        Link(r.next, st.receiver, st.acks[1..], r.complete)
      else
        st
  }

  /** The turns taken one after another. */
  function Schedule(st: Link, packets: seq<Packet>, turns: seq<Turn>): Link
    decreases |turns|
  {
    if |turns| == 0 then st else Schedule(LinkStep(st, packets, turns[0]), packets, turns[1..])
  }

  /** How many packets the listener has seen acknowledged: `base` made absolute. */
  function Acked(w: Window): int
  {
    AbsoluteIndex(w.base, w.cycles)
  }

  /** How many packets the transmit loop has sent: `nextSeqNum` made absolute. */
  function Sent(w: Window): int
  {
    AbsoluteIndex(w.nextSeqNum, w.cycles)
  }

  /** What holds in every state a perfect link reaches: the window invariant; the
      receiver has taken every packet sent, in order; one acknowledgment per
      unacknowledged sent packet is queued, oldest first; and completion has been
      seen exactly when a non-empty file is fully acknowledged. */
  predicate PerfectLink(st: Link, packets: seq<Packet>)
  {
    && WindowInvariant(st.window)
    && st.window.base < SEQ_NUM_MODULO
    && Sent(st.window) <= |packets|
    && st.receiver == ReceivedPrefix(packets, Sent(st.window))
    && |st.acks| == Sent(st.window) - Acked(st.window)
    && (forall i :: 0 <= i < |st.acks| ==> st.acks[i] == (Acked(st.window) + i) % SEQ_NUM_MODULO)
    && (st.complete <==> 0 < Acked(st.window) == |packets|)
  }

  /** A window-relative index and a cycle count are the residue and quotient of the absolute index. */
  lemma AbsoluteIndexSplit(index: int, cycles: nat)
    requires 0 <= index < SEQ_NUM_MODULO
    ensures AbsoluteIndex(index, cycles) % SEQ_NUM_MODULO == index
    ensures AbsoluteIndex(index, cycles) / SEQ_NUM_MODULO == cycles
  {
  }

  /** The acknowledgment of packet `k` arriving when `k` is the oldest
      outstanding packet is accepted, moves the absolute base to `k + 1`, keeps
      the sent count, and completes the transfer exactly when `k` is the last packet. */
  lemma InOrderAck(w: Window, numberOfPackets: nat, k: nat)
    requires WindowInvariant(w)
    requires w.base == k % SEQ_NUM_MODULO && w.cycles == k / SEQ_NUM_MODULO
    requires w.base < w.nextSeqNum
    ensures AckInWindow(w, k % SEQ_NUM_MODULO)
    ensures Acked(AckStep(w, numberOfPackets, k % SEQ_NUM_MODULO).next) == k + 1
    ensures Sent(AckStep(w, numberOfPackets, k % SEQ_NUM_MODULO).next) == Sent(w)
    ensures WindowInvariant(AckStep(w, numberOfPackets, k % SEQ_NUM_MODULO).next)
    ensures AckStep(w, numberOfPackets, k % SEQ_NUM_MODULO).next.base < SEQ_NUM_MODULO
    ensures AckStep(w, numberOfPackets, k % SEQ_NUM_MODULO).complete <==> k + 1 == numberOfPackets
  {
  }

  /** A transmit turn whose guard holds sends packet `Sent`; the receiver, which
      has taken every earlier packet, takes it too and queues its ack. */
  lemma TransmitTakesNext(content: seq<byte>, packets: seq<Packet>, st: Link)
    requires PacketsOf(content, packets)
    requires PerfectLink(st, packets)
    requires CanSend(st.window, |packets|)
    ensures SendStep(st.window, packets).sent == packets[Sent(st.window)]
    ensures LinkStep(st, packets, Transmit) ==
              Link(SendStep(st.window, packets).next, ReceivedPrefix(packets, Sent(st.window) + 1),
                   st.acks + [Sent(st.window) % SEQ_NUM_MODULO], st.complete)
  {
    var n := Sent(st.window);
    assert packets[n] == ChunkPacket(content, n);
    AcceptsNext(packets, n);
    assert Step(st.receiver, packets[n]).sent == Some(CreateAck(n % SEQ_NUM_MODULO));
  }

  /** One more packet sent and taken in order, with its ack queued behind the
      others, keeps the perfect-link invariant. */
  lemma SentOneMore(packets: seq<Packet>, st: Link, w: Window)
    requires PerfectLink(st, packets)
    requires WindowInvariant(w) && w.base == st.window.base && w.cycles == st.window.cycles
    requires w.nextSeqNum == st.window.nextSeqNum + 1 && Sent(w) <= |packets|
    ensures PerfectLink(Link(w, ReceivedPrefix(packets, Sent(w)), st.acks + [Sent(st.window) % SEQ_NUM_MODULO], st.complete),
                        packets)
  {
    var acks := st.acks + [Sent(st.window) % SEQ_NUM_MODULO];
    forall i | 0 <= i < |acks|
      ensures acks[i] == (Acked(w) + i) % SEQ_NUM_MODULO
    {
      if i < |st.acks| {
        assert acks[i] == st.acks[i];
      }
    }
  }

  /** A transmit turn sends packet `Sent` when the guard allows and leaves the
      link in a perfect-link state. */
  lemma TransmitKeepsPerfectLink(content: seq<byte>, packets: seq<Packet>, st: Link)
    requires PacketsOf(content, packets)
    requires PerfectLink(st, packets)
    ensures PerfectLink(LinkStep(st, packets, Transmit), packets)
    ensures Acked(LinkStep(st, packets, Transmit).window) == Acked(st.window)
    ensures Sent(LinkStep(st, packets, Transmit).window) ==
              Sent(st.window) + if CanSend(st.window, |packets|) then 1 else 0
  {
    if CanSend(st.window, |packets|) {
      TransmitTakesNext(content, packets, st);
      SentOneMore(packets, st, SendStep(st.window, packets).next);
    }
  }

  /** A listen turn handles the oldest queued ack, which names the oldest
      outstanding packet, and leaves the link in a perfect-link state. */
  lemma ListenKeepsPerfectLink(packets: seq<Packet>, st: Link)
    requires PerfectLink(st, packets)
    ensures PerfectLink(LinkStep(st, packets, Listen), packets)
    ensures Sent(LinkStep(st, packets, Listen).window) == Sent(st.window)
    ensures Acked(LinkStep(st, packets, Listen).window) ==
              Acked(st.window) + if !st.complete && |st.acks| > 0 then 1 else 0
  {
    if !st.complete && |st.acks| > 0 {
      var k: nat := Acked(st.window);
      AbsoluteIndexSplit(st.window.base, st.window.cycles);
      InOrderAck(st.window, |packets|, k);
      var next := LinkStep(st, packets, Listen);
      assert forall i :: 0 <= i < |next.acks| ==> next.acks[i] == st.acks[i + 1];
    }
  }

  /** One turn of either thread keeps the perfect-link invariant. */
  lemma LinkStepKeepsPerfectLink(content: seq<byte>, packets: seq<Packet>, st: Link, turn: Turn)
    requires PacketsOf(content, packets)
    requires PerfectLink(st, packets)
    ensures PerfectLink(LinkStep(st, packets, turn), packets)
  {
    match turn
    case Transmit => TransmitKeepsPerfectLink(content, packets, st);
    case Listen => ListenKeepsPerfectLink(packets, st);
  }

  /** Over a perfect link, whichever thread takes the monitor at each turn, the
      receiver has written exactly the chunks sent so far, at most 10 packets
      are outstanding, and completion is seen only once the whole file is
      acknowledged and written. */
  lemma {:induction false} PerfectLinkRun(content: seq<byte>, packets: seq<Packet>, st: Link, turns: seq<Turn>)
    requires PacketsOf(content, packets)
    requires PerfectLink(st, packets)
    ensures var last := Schedule(st, packets, turns);
            && PerfectLink(last, packets)
            && last.receiver.output == Flatten(Payloads(packets[..Sent(last.window)]))
            && Sent(last.window) - Acked(last.window) <= WINDOW_SIZE
            && (last.complete ==> 0 < |packets| && last.receiver.output == content)
    decreases |turns|
  {
    if |turns| > 0 {
      LinkStepKeepsPerfectLink(content, packets, st, turns[0]);
      PerfectLinkRun(content, packets, LinkStep(st, packets, turns[0]), turns[1..]);
    } else if st.complete {
      WholeFileReceived(content, packets);
    }
  }

  /** The start is a perfect-link state. */
  lemma InitialPerfectLink(packets: seq<Packet>)
    ensures PerfectLink(InitialLink, packets)
  {
    assert packets[..0] == [];
  }

  /** Until completion of a non-empty transfer, one of the two threads can
      always move: either the transmit loop's guard holds or an ack is queued. */
  lemma PerfectLinkNoDeadlock(content: seq<byte>, packets: seq<Packet>, st: Link)
    requires PacketsOf(content, packets)
    requires 0 < |packets|
    requires PerfectLink(st, packets) && !st.complete
    ensures CanSend(st.window, |packets|) || |st.acks| > 0
  {
  }

  /** The schedule the monitor produces when the transmit loop, which holds the
      monitor until its guard fails, is let through whenever it can send; the ack
      listener runs only while the loop waits.  It runs to completion. */
  function EagerRun(content: seq<byte>, packets: seq<Packet>, st: Link): (last: Link)
    requires PacketsOf(content, packets)
    requires PerfectLink(st, packets)
    requires 0 < |packets|
    ensures PerfectLink(last, packets)
    ensures last.complete
    ensures last.receiver.output == content
    decreases 2 * |packets| - Sent(st.window) - Acked(st.window)
  {
    if st.complete then
      WholeFileReceived(content, packets);
      st
    else
      PerfectLinkNoDeadlock(content, packets, st);
      var turn := if CanSend(st.window, |packets|) then Transmit else Listen;
      TransmitKeepsPerfectLink(content, packets, st);
      ListenKeepsPerfectLink(packets, st);
      EagerRun(content, packets, LinkStep(st, packets, turn))
  }

  /** Once the listener has seen completion over a perfect link, the EOT the
      sender sends carries the packet count modulo 32; the receiver answers it
      with an EOT, ends, and has written exactly the input file. */
  lemma LosslessEotExchange(content: seq<byte>, packets: seq<Packet>, st: Link)
    requires |content| <= INT32_MAX
    requires PacketsOf(content, packets)
    requires PerfectLink(st, packets) && st.complete
    ensures var reply := Step(st.receiver, EotPacket(|packets|));
            && EotPacket(|packets|).seqNum == |packets| % SEQ_NUM_MODULO
            && reply.next.done
            && reply.next.output == content
            && reply.sent.Some?
            && reply.sent.value.ptype == TYPE_EOT
  {
    WholeFileReceived(content, packets);
  }

  /** An empty file yields no packets, so the transmit loop never sends, no
      acknowledgment ever arrives to trigger the completion test, and neither
      thread can ever change the state: the EOT is never reached. */
  lemma EmptyFileSendsNothing(content: seq<byte>, packets: seq<Packet>)
    requires PacketsOf(content, packets)
    requires |content| == 0
    ensures |packets| == 0
    ensures !CanSend(InitialWindow, |packets|)
    ensures forall turns :: Schedule(InitialLink, packets, turns) == InitialLink
  {
    forall turns | true
      ensures Schedule(InitialLink, packets, turns) == InitialLink
    {
      EmptyFileStaysInitial(packets, turns);
    }
  }

  lemma {:induction false} EmptyFileStaysInitial(packets: seq<Packet>, turns: seq<Turn>)
    requires |packets| == 0
    ensures Schedule(InitialLink, packets, turns) == InitialLink
    decreases |turns|
  {
    if |turns| > 0 {
      assert LinkStep(InitialLink, packets, turns[0]) == InitialLink;
      EmptyFileStaysInitial(packets, turns[1..]);
    }
  }

  /** Once 32 packets have been taken in order the expected number wraps to 0,
      and from then on a duplicate of packet 31 gets no reply at all, although
      31 was acknowledged when it was taken. */
  lemma NoReAckAfterWrap(content: seq<byte>, packets: seq<Packet>)
    requires PacketsOf(content, packets)
    requires SEQ_NUM_MODULO <= |packets|
    ensures ReceivedPrefix(packets, SEQ_NUM_MODULO).expectedSeqNum == 0
    ensures Step(ReceivedPrefix(packets, SEQ_NUM_MODULO), packets[SEQ_NUM_MODULO - 1]).sent.None?
    ensures Step(ReceivedPrefix(packets, SEQ_NUM_MODULO - 1), packets[SEQ_NUM_MODULO - 1]).sent
            == Some(CreateAck(SEQ_NUM_MODULO - 1))
  {
    assert packets[SEQ_NUM_MODULO - 1] == ChunkPacket(content, SEQ_NUM_MODULO - 1);
  }
}
